=== FILE: README.md ===
# Audio output device resolution for the looping player

This project models the device-resolution logic of the looping audio player
`loop_audio_match.py`. Before playback starts, the player asks its playback
backend (python-vlc) for the audio outputs it knows, turns the backend's
answer into a list of at most ten `(device id, description)` pairs, and
resolves the user's choice against that list. The choice comes from the
first command-line argument or from an interactive prompt. The result is a
device id, or `None` for the backend's default output.

Modules:

- `Wrappers` (`wrappers.dfy`): `Option`, standing in for a Python value that may be `None`.
- `Text` (`text.dfy`): the parts of Python's `str` the resolution uses.
  These are `strip()`, ASCII `lower()` and the substring test `needle in hay`.
  `Strip` and `Contains` are stated against declarative references (`AllSpace`,
  `OccursIn`); `Lower` is defined character by character.
- `Enumeration` (`enumeration.dfy`): the three shapes the backend may return (`Null`,
  `Flat`, `Linked`). It holds the per-entry attribute fallbacks, a pure
  reference `Enumerate`, and `DevicesFromEnum`, which follows the source's
  two loops and records the list-release call as a trace of `Release` events.
- `Selection` (`selection.dfy`): where the choice string comes from (`ChoiceFrom`),
  and the resolution precedence (`Select`). `ResolveChoice` and `SelectDevice`
  follow `select_device` branch for branch.

Python truthiness is explicit. An optional string attribute counts only when it is
present and non-empty (`Truthy`), and `a or b` is `Or(a, b)`.

Exceptions are inputs. An entry whose attribute read raises (an exception
other than `AttributeError`, or an interrupt arriving while it is read) is
named by its index (`raisesAt`). How the list-release call ends is a
`ReleaseOutcome`: it returns, raises an `Exception` (`Failed`), or raises
something that is not an `Exception`, such as `KeyboardInterrupt` or
`SystemExit` (`Interrupted`). A walk ends in `Listed(devices)` or `Raised`.
A linked list is released once, with its head, also when its walk raised, as
the source's `try`/`finally` guarantees. A `Failed` release is swallowed and
leaves the result alone; an `Interrupted` one leaves `select_device`.

## Model

| member | source | states |
|---|---|---|
| Enumeration.Enumerate | loop_audio_match.py:18-50 | Every shape yields at most ten devices. A `None` enumeration yields none. Every device has a non-empty id. |
| Enumeration.WalkFlat | loop_audio_match.py:25-31 | The flat loop returns exactly the reference list, or raises exactly when an entry among the first ten raises while being read. |
| Enumeration.WalkLinked | loop_audio_match.py:34-42 | The linked walk returns exactly the reference list, or raises exactly when a node raises while fewer than ten devices have been kept before it. |
| Enumeration.DevicesFromEnum | loop_audio_match.py:10-50 | Returns the reference list unless an exception leaves it. One does exactly when the walk reaches a raising entry, or a linked list's release raises something that is not an `Exception`. `None` and flat results are never released. A linked list is released once, with its head, also when its walk raised. A release raising an `Exception` changes nothing in the result. |
| Enumeration.FlatEntry | loop_audio_match.py:27-30 | A flat entry is kept exactly when `device` or `device_id` is truthy. A kept entry has a non-empty id and a non-empty description. |
| Enumeration.NodeEntry | loop_audio_match.py:38-41 | A linked node is kept exactly when `device` is truthy. The id is that `device` value, and the description is non-empty. |
| Enumeration.FlatDescriptionFallback | loop_audio_match.py:27-28 | Flat shape: the id is `device`, else `device_id`. The description is `description`, else `name`, else the id. |
| Enumeration.NodeDescriptionFallback | loop_audio_match.py:38-39 | Linked shape: the description is `description`, else the id. `device_id` and `name` are never consulted. |
| Enumeration.FilterMapRank | loop_audio_match.py:40-42 | Order is kept. The accepted entry at position i becomes the device at position "number of devices read from the entries before i". |
| Enumeration.FilterMapOrigin | loop_audio_match.py:29-30 | Nothing is invented. Every device read comes from one accepted entry, at exactly that entry's rank. |
| Enumeration.FlatKeepsOrder | loop_audio_match.py:26-30 | Flat shape: each id-bearing entry among the first ten appears in the result at its rank. |
| Enumeration.FlatIgnoresTail | loop_audio_match.py:26 | Flat shape: entries after the tenth never affect the result. |
| Enumeration.FlatIsPrefixOfKept | loop_audio_match.py:26-31 | Flat shape: the result is a prefix of the id-bearing entries of the whole list. |
| Enumeration.FlatCapCanHideDevices | loop_audio_match.py:26-30 | Concrete case: ten id-less entries followed by one usable entry. The flat shape lists nothing. The linked shape lists that entry. |
| Enumeration.LinkedIsPrefixOfKept | loop_audio_match.py:37-42 | Linked shape: the result is a prefix of the id-bearing nodes, of length min(10, their number). |
| Enumeration.LinkedKeepsFirstTen | loop_audio_match.py:37-42 | Linked shape: each id-bearing node of rank below ten is in the result at its rank. |
| Text.Strip | loop_audio_match.py:61 | `strip()` leaves no whitespace at either end. The result is empty exactly when the input is all whitespace. |
| Text.StripKeepsMiddle | loop_audio_match.py:67 | `strip()` only removes whitespace, and only at the two ends. |
| Text.StripIdempotent | loop_audio_match.py:61 | Stripping twice is stripping once. |
| Text.Lower | loop_audio_match.py:80 | `lower()` keeps the length, maps each character on its own, and leaves no ASCII capital. |
| Text.Contains | loop_audio_match.py:82 | The left-to-right scan answers `needle in hay` exactly when the needle occurs at some offset. |
| Selection.ChoiceFrom | loop_audio_match.py:59-69 | The choice has no surrounding whitespace. It is blank exactly when `argv[1]` is all whitespace (two or more arguments), or when the typed line is. End of input gives "". |
| Selection.ArgumentOverridesInput | loop_audio_match.py:60-61 | With two or more arguments, the choice is the stripped `argv[1]`, whatever the interactive input. |
| Selection.FirstMatch | loop_audio_match.py:81-83 | Returns the first index whose description contains the choice case-insensitively. Returns none exactly when no description does. |
| Selection.Select | loop_audio_match.py:56-86 | An empty list or a blank choice gives default. An in-range digit gives that index's id. Otherwise the result is the first case-insensitive description match, or default exactly when nothing matches. |
| Selection.SelectedIsListed | loop_audio_match.py:77-83 | Any selected id belongs to a listed device. |
| Selection.FirstMatchWins | loop_audio_match.py:80-83 | For a non-index choice, the first matching device is the one selected. |
| Selection.SelectIgnoresCase | loop_audio_match.py:80-82 | Selecting with the lowercased choice gives the same result as with the choice itself. |
| Selection.EndOfInputSelectsDefault | loop_audio_match.py:66-72 | With no argument, end of input selects the default output. |
| Selection.DigitWinsOverText | loop_audio_match.py:74-77 | Concrete case: "1" picks device 1 even though device 0's description contains "1". |
| Selection.KeywordMatches | loop_audio_match.py:79-83 | Concrete case: "box" picks "USB Box Audio" over "Built-in". |
| Selection.OutOfRangeDigitIsSearched | loop_audio_match.py:74-83 | Concrete case: with two devices, "7" is not an index, and it matches "Channel 7" as text. |
| Selection.SearchDescriptions | loop_audio_match.py:80-86 | The search loop returns the id of the first matching device, or none exactly when no description matches. It agrees with `FirstMatch`. |
| Selection.ResolveChoice | loop_audio_match.py:56-86 | For a given device list, the branch-by-branch model agrees with `Select` on the sourced choice. It prompts exactly when devices exist and no argument was given. It warns exactly when a non-blank choice against a non-empty list resolves to default. |
| Selection.SelectDevice | loop_audio_match.py:53-86 | An exception leaves the function exactly when one leaves the enumeration, before any prompt, resolution or warning. Otherwise the choice resolves against the enumerated devices, with prompt and warning conditions stated on the enumeration result. The release trace of the enumeration is kept either way. |

## Left out

- `main` (loop_audio_match.py:89-142): the file check, creating the player, setting the output device with its `TypeError` retry, list-player loop mode and the keep-alive loop. These are calls into the playback library and process lifetime.
- Printing the device menu and the prompt text (loop_audio_match.py:63-67). This is console output. The model keeps only whether the prompt was shown (`prompted`) and whether the "invalid selection" warning was printed (`warned`).
- `conv.py` as a whole: argument parsing, filesystem and search-path probes, and subprocess or library calls mapped to exit codes.
- Selection.IsIndexChoice: only ASCII digits count as digits. In the source, a single non-ASCII decimal digit (such as "３" or "٣") passes `str.isdigit`, `int()` converts it, and it selects that index when in range. Any other character that `isdigit` accepts but that is not a decimal digit (such as "²") makes `int()` raise `ValueError`, which escapes `select_device`. The model treats both kinds of character as search text.
- Text.Lower: only ASCII letters are folded. Python's `str.lower` uses full Unicode case mapping.
- Enumeration.Attrs: ids and descriptions are modelled as strings. Some python-vlc versions hand out bytes. Then `str()` of an id is not the id's text, and the description test at loop_audio_match.py:82 looks for a `str` inside `bytes`, which raises `TypeError`: every non-index choice would crash `select_device`.
- Enumeration.Enum: only `None`, `list`/`tuple` and a linked list of nodes are modelled. Any other non-`None` value is walked as a linked list by the source, and it is not modelled.
- Enumeration.DevicesFromEnum: an exception is modelled only by where it arises (`raisesAt`, or the release's `ReleaseOutcome`) and not by its kind. An exception from the enumeration call itself (loop_audio_match.py:19) would leave `select_device` and is not modelled: the call's result is the model's input.
- The `(desc or "")` guard (loop_audio_match.py:82) is not modelled. Every enumerated description is non-empty (`FlatEntry`, `NodeEntry`), so the guard never applies.

=== FILE: enumeration.dfy ===
/**
 Normalisation of a playback backend's audio-output enumeration into an
 ordered list of at most ten (device id, description) pairs.

 The backend answers in one of three shapes: nothing at all, a flat list of
 entry objects, or a linked list of nodes that has to be handed back to the
 backend once it has been walked. Entry objects are duck-typed: any of the
 attributes `device`, `device_id`, `description` and `name` may be missing,
 and Python's truthiness decides which one is used.
 */
module Enumeration {
  import opened Wrappers

  /** The interactive menu lists at most this many devices. */
  const MaxDevices: nat := 10

  /** The attributes of one backend entry or list node; `None` is an absent or `None` attribute. */
  datatype Attrs = Attrs(
    device: Option<string>,
    deviceId: Option<string>,
    description: Option<string>,
    name: Option<string>)

  /** What the backend's enumeration call returned. */
  datatype Enum =
    | Null                        // the call returned None
    | Flat(entries: seq<Attrs>)   // a Python list or tuple of entry objects
    | Linked(nodes: seq<Attrs>)   // a linked list, head first, following `next`

  /** One selectable output device. */
  datatype Device = Device(id: string, description: string)

  /**
   How the backend's list-release call ends: it returns, it raises an
   `Exception` (which the source swallows), or it raises something that is
   not an `Exception`, such as `KeyboardInterrupt` or `SystemExit`.
   */
  datatype ReleaseOutcome = Returned | Failed | Interrupted

  /** One call of the backend's list-release function, with the head it was given. */
  datatype Release = Release(head: seq<Attrs>, outcome: ReleaseOutcome)

  /** How an enumeration walk ends: with the device list, or with an exception leaving it. */
  datatype Walk = Listed(devices: seq<Device>) | Raised

  /** Python truthiness of an optional string attribute. */
  predicate Truthy(a: Option<string>) {
    a.Some? && a.value != ""
  }

  /** Python's `a or b` on optional strings. */
  function Or(a: Option<string>, b: Option<string>): (r: Option<string>)
    ensures Truthy(r) <==> Truthy(a) || Truthy(b)
    ensures Truthy(a) ==> r == a
  {
    if Truthy(a) then a else b
  }

  /** How the flat shape reads one entry: `None` when it has no usable id. */
  function FlatEntry(a: Attrs): (r: Option<Device>)
    ensures r.Some? <==> Truthy(a.device) || Truthy(a.deviceId)
    ensures r.Some? ==> r.value.id != "" && r.value.description != ""
  {
    var id := Or(a.device, a.deviceId);
    if Truthy(id) then Some(Device(id.value, Or(Or(a.description, a.name), id).value)) else None
  }

  /** How the linked shape reads one node: only `device` and `description` are consulted. */
  function NodeEntry(a: Attrs): (r: Option<Device>)
    ensures r.Some? <==> Truthy(a.device)
    ensures r.Some? ==> r.value.id == a.device.value && r.value.description != ""
  {
    var id := a.device;
    if Truthy(id) then Some(Device(id.value, Or(a.description, id).value)) else None
  }

  /** The devices `f` reads from `xs`, in order, skipping the entries it rejects. */
  function FilterMap<A>(xs: seq<A>, f: A -> Option<Device>): (r: seq<Device>)
    ensures |r| <= |xs|
  {
    if xs == [] then []
    else
      var head := match f(xs[0]) case Some(d) => [d] case None => [];
      head + FilterMap(xs[1..], f)
  }

  function Min(a: nat, b: nat): (m: nat)
    ensures m <= a && m <= b && (m == a || m == b)
  {
    if a <= b then a else b
  }

  /** Python's `s[:n]`: the first `n` elements of `s`, or all of `s` when it is shorter. */
  function Truncate<T>(s: seq<T>, n: nat): (r: seq<T>)
    ensures |r| == Min(n, |s|)
    ensures r <= s
  {
    if |s| <= n then s else s[..n]
  }

  /**
   Reference definition of the normalised enumeration. The flat shape cuts the
   raw list to ten entries BEFORE dropping those without an id; the linked shape
   keeps walking until ten devices have been kept.
   */
  function Enumerate(e: Enum): (r: seq<Device>)
    ensures |r| <= MaxDevices
    ensures e.Null? ==> r == []
    ensures forall k :: 0 <= k < |r| ==> r[k].id != ""
  {
    match e
    case Null => []
    case Flat(entries) =>
      var window := Truncate(entries, MaxDevices);
      var r := FilterMap(window, FlatEntry);
      forall k | 0 <= k < |r| ensures r[k].id != "" {
        FilterMapOrigin(window, FlatEntry, k);
      }
      r
    case Linked(nodes) =>
      var all := FilterMap(nodes, NodeEntry);
      forall k | 0 <= k < |all| ensures all[k].id != "" {
        FilterMapOrigin(nodes, NodeEntry, k);
      }
      Truncate(all, MaxDevices)
  }

  /** Reading a concatenation reads each part in turn. */
  lemma {:induction false} FilterMapAppend<A>(xs: seq<A>, ys: seq<A>, f: A -> Option<Device>)
    ensures FilterMap(xs + ys, f) == FilterMap(xs, f) + FilterMap(ys, f)
  {
    if xs == [] {
      assert xs + ys == ys;
    } else {
      assert (xs + ys)[1..] == xs[1..] + ys;
      FilterMapAppend(xs[1..], ys, f);
    }
  }

  /**
   Order is kept: an accepted entry at position `i` becomes the device at
   position "number of devices read from the entries before it".
   */
  lemma FilterMapRank<A>(xs: seq<A>, f: A -> Option<Device>, i: nat)
    requires i < |xs| && f(xs[i]).Some?
    ensures |FilterMap(xs[..i], f)| < |FilterMap(xs, f)|
    ensures FilterMap(xs, f)[|FilterMap(xs[..i], f)|] == f(xs[i]).value
  {
    assert xs == xs[..i] + ([xs[i]] + xs[i + 1..]);
    FilterMapAppend(xs[..i], [xs[i]] + xs[i + 1..], f);
    FilterMapAppend([xs[i]], xs[i + 1..], f);
    assert FilterMap([xs[i]], f) == [f(xs[i]).value] + FilterMap([xs[i]][1..], f);
  }

  /** Nothing is invented: every device read is what `f` makes of one accepted entry, at its rank. */
  lemma {:induction false} FilterMapOrigin<A>(xs: seq<A>, f: A -> Option<Device>, k: nat)
    requires k < |FilterMap(xs, f)|
    ensures exists i :: 0 <= i < |xs| && f(xs[i]) == Some(FilterMap(xs, f)[k]) && |FilterMap(xs[..i], f)| == k
  {
    var r := FilterMap(xs, f);
    assert xs[..0] == [];
    if f(xs[0]).Some? && k == 0 {
      assert f(xs[0]) == Some(r[k]);
    } else {
      var k' := if f(xs[0]).Some? then k - 1 else k;
      FilterMapOrigin(xs[1..], f, k');
      var j :| 0 <= j < |xs[1..]| && f(xs[1..][j]) == Some(FilterMap(xs[1..], f)[k']) && |FilterMap(xs[1..][..j], f)| == k';
      assert xs[..j + 1] == [xs[0]] + xs[1..][..j];
      FilterMapAppend([xs[0]], xs[1..][..j], f);
      assert FilterMap([xs[0]], f) == (if f(xs[0]).Some? then [f(xs[0]).value] else []) + FilterMap([xs[0]][1..], f);
      assert f(xs[j + 1]) == Some(r[k]) && |FilterMap(xs[..j + 1], f)| == k;
    }
  }

  /** Description fallback, flat shape: `description`, then `name`, then the id itself. */
  lemma FlatDescriptionFallback(a: Attrs)
    requires FlatEntry(a).Some?
    ensures Truthy(a.description) ==> FlatEntry(a).value.description == a.description.value
    ensures !Truthy(a.description) && Truthy(a.name) ==> FlatEntry(a).value.description == a.name.value
    ensures !Truthy(a.description) && !Truthy(a.name) ==> FlatEntry(a).value.description == FlatEntry(a).value.id
    ensures FlatEntry(a).value.id == if Truthy(a.device) then a.device.value else a.deviceId.value
  {
  }

  /** Description fallback, linked shape: `description`, then the id; `device_id` and `name` are never read. */
  lemma NodeDescriptionFallback(a: Attrs, otherId: Option<string>, otherName: Option<string>)
    requires NodeEntry(a).Some?
    ensures Truthy(a.description) ==> NodeEntry(a).value.description == a.description.value
    ensures !Truthy(a.description) ==> NodeEntry(a).value.description == NodeEntry(a).value.id
    ensures NodeEntry(a.(deviceId := otherId, name := otherName)) == NodeEntry(a)
  {
  }

  /** Flat shape, order: the id-bearing entries among the first ten appear in list order. */
  lemma FlatKeepsOrder(entries: seq<Attrs>, i: nat)
    requires i < MaxDevices && i < |entries| && FlatEntry(entries[i]).Some?
    ensures |FilterMap(entries[..i], FlatEntry)| < |Enumerate(Flat(entries))|
    ensures Enumerate(Flat(entries))[|FilterMap(entries[..i], FlatEntry)|] == FlatEntry(entries[i]).value
  {
    var window := Truncate(entries, MaxDevices);
    assert window[..i] == entries[..i];
    FilterMapRank(window, FlatEntry, i);
  }

  /** Flat shape: entries past the tenth are never looked at. */
  lemma FlatIgnoresTail(entries: seq<Attrs>, rest: seq<Attrs>)
    requires |entries| >= MaxDevices
    ensures Enumerate(Flat(entries + rest)) == Enumerate(Flat(entries))
  {
    assert Truncate(entries + rest, MaxDevices) == Truncate(entries, MaxDevices);
  }

  /** Flat shape: the result is a prefix of the id-bearing entries of the whole list, never longer than ten. */
  lemma FlatIsPrefixOfKept(entries: seq<Attrs>)
    ensures Enumerate(Flat(entries)) <= FilterMap(entries, FlatEntry)
  {
    var window := Truncate(entries, MaxDevices);
    assert entries == window + entries[|window|..];
    FilterMapAppend(window, entries[|window|..], FlatEntry);
  }

  /**
   Flat shape: cutting before filtering can list fewer than ten devices while
   more id-bearing entries follow; the linked shape lists the same entry.
   */
  lemma FlatCapCanHideDevices()
    ensures var blank := Attrs(None, None, Some("unnamed"), None);
            var usb := Attrs(Some("hw:1"), None, Some("USB Audio"), None);
            var entries := seq(MaxDevices, _ => blank) + [usb];
            && Enumerate(Flat(entries)) == []
            && Enumerate(Linked(entries)) == [Device("hw:1", "USB Audio")]
  {
    var blank := Attrs(None, None, Some("unnamed"), None);
    var usb := Attrs(Some("hw:1"), None, Some("USB Audio"), None);
    var entries := seq(MaxDevices, _ => blank) + [usb];
    assert Truncate(entries, MaxDevices) == seq(MaxDevices, _ => blank);
    BlanksReadNothing(MaxDevices, blank, FlatEntry);
    assert entries == seq(MaxDevices, _ => blank) + [usb];
    FilterMapAppend(seq(MaxDevices, _ => blank), [usb], NodeEntry);
    BlanksReadNothing(MaxDevices, blank, NodeEntry);
    assert FilterMap([usb], NodeEntry) == [Device("hw:1", "USB Audio")] + FilterMap([usb][1..], NodeEntry);
  }

  lemma {:induction false} BlanksReadNothing(n: nat, blank: Attrs, f: Attrs -> Option<Device>)
    requires f(blank).None?
    ensures FilterMap(seq(n, _ => blank), f) == []
  {
    if n > 0 {
      assert seq(n, _ => blank)[1..] == seq(n - 1, _ => blank);
      BlanksReadNothing(n - 1, blank, f);
    }
  }

  /** Linked shape: the result is the id-bearing nodes, in list order, cut at ten. */
  lemma LinkedIsPrefixOfKept(nodes: seq<Attrs>)
    ensures Enumerate(Linked(nodes)) <= FilterMap(nodes, NodeEntry)
    ensures |Enumerate(Linked(nodes))| == Min(MaxDevices, |FilterMap(nodes, NodeEntry)|)
  {
  }

  /** Linked shape: every id-bearing node among the first ten kept is listed at its rank. */
  lemma LinkedKeepsFirstTen(nodes: seq<Attrs>, i: nat)
    requires i < |nodes| && NodeEntry(nodes[i]).Some?
    requires |FilterMap(nodes[..i], NodeEntry)| < MaxDevices
    ensures |FilterMap(nodes[..i], NodeEntry)| < |Enumerate(Linked(nodes))|
    ensures Enumerate(Linked(nodes))[|FilterMap(nodes[..i], NodeEntry)|] == NodeEntry(nodes[i]).value
  {
    FilterMapRank(nodes, NodeEntry, i);
  }

  /**
   Whether the walk reaches entry `raisesAt` and reading that entry raises.
   `raisesAt` names the entry whose attribute getter raises something other
   than `AttributeError`, or during whose reading an interrupt arrives. The
   flat shape reads only the first ten entries; the linked walk reads a node
   only while fewer than ten devices have been kept.
   */
  predicate RaisesDuringWalk(e: Enum, raisesAt: Option<nat>) {
    match raisesAt
    case None => false
    case Some(i) =>
      match e
      case Null => false
      case Flat(entries) => i < Min(MaxDevices, |entries|)
      case Linked(nodes) => i < |nodes| && |FilterMap(nodes[..i], NodeEntry)| < MaxDevices
  }

  /** The flat branch, `for d in enum[:10]`; `Raised` when reading an entry raises. */
  method WalkFlat(entries: seq<Attrs>, raisesAt: Option<nat>) returns (result: Walk)
    ensures result.Raised? <==> RaisesDuringWalk(Flat(entries), raisesAt)
    ensures result.Listed? ==> result.devices == Enumerate(Flat(entries))
  {
    var window := Truncate(entries, MaxDevices);
    var devs := [];
    var i := 0;
    while i < |window|
      invariant 0 <= i <= |window|
      invariant devs == FilterMap(window[..i], FlatEntry)
      invariant raisesAt.Some? ==> raisesAt.value >= i
    {
      if raisesAt == Some(i) {
        return Raised;
      }
      assert window[..i + 1] == window[..i] + [window[i]];
      FilterMapAppend(window[..i], [window[i]], FlatEntry);
      match FlatEntry(window[i]) {
        case Some(d) => devs := devs + [d];
        case None =>
      }
      i := i + 1;
    }
    assert window[..i] == window;
    return Listed(devs);
  }

  /** The linked branch's `while cur and len(devs) < 10` walk; `Raised` when reading a node raises. */
  method WalkLinked(nodes: seq<Attrs>, raisesAt: Option<nat>) returns (result: Walk)
    ensures result.Raised? <==> RaisesDuringWalk(Linked(nodes), raisesAt)
    ensures result.Listed? ==> result.devices == Enumerate(Linked(nodes))
  {
    var devs := [];
    var i := 0;
    while i < |nodes| && |devs| < MaxDevices
      invariant 0 <= i <= |nodes|
      invariant devs == FilterMap(nodes[..i], NodeEntry)
      invariant |devs| <= MaxDevices
      invariant raisesAt.Some? ==> raisesAt.value >= i
    {
      if raisesAt == Some(i) {
        return Raised;
      }
      assert nodes[..i + 1] == nodes[..i] + [nodes[i]];
      FilterMapAppend(nodes[..i], [nodes[i]], NodeEntry);
      match NodeEntry(nodes[i]) {
        case Some(d) => devs := devs + [d];
        case None =>
      }
      i := i + 1;
    }
    assert nodes == nodes[..i] + nodes[i..];
    FilterMapAppend(nodes[..i], nodes[i..], NodeEntry);
    if raisesAt.Some? && raisesAt.value < |nodes| {
      var v := raisesAt.value;
      assert nodes[..v] == nodes[..i] + nodes[i..v];
      FilterMapAppend(nodes[..i], nodes[i..v], NodeEntry);
    }
    return Listed(devs);
  }

  /**
   Whether an exception leaves `_devices_from_enum`: the walk raised, or the
   release of a linked list raised something that is not an `Exception`.
   */
  predicate Escapes(e: Enum, raisesAt: Option<nat>, release: ReleaseOutcome) {
    RaisesDuringWalk(e, raisesAt) || (e.Linked? && release == Interrupted)
  }

  /**
   Python `_devices_from_enum`. The flat shape is never released. A linked
   list is released exactly once, with its head, whether or not the walk
   raised part-way (the `finally` clause). A release that raises an
   `Exception` is swallowed without touching the result; any other raise
   from it leaves the function.
   */
  method DevicesFromEnum(e: Enum, raisesAt: Option<nat>, release: ReleaseOutcome)
    returns (result: Walk, releases: seq<Release>)
    ensures result.Raised? <==> Escapes(e, raisesAt, release)
    ensures result.Listed? ==> result.devices == Enumerate(e)
    ensures e.Linked? ==> releases == [Release(e.nodes, release)]
    ensures !e.Linked? ==> releases == []
  {
    releases := [];
    match e {
      case Null =>
        result := Listed([]);
      case Flat(entries) =>
        result := WalkFlat(entries, raisesAt);
      case Linked(nodes) =>
        result := WalkLinked(nodes, raisesAt);
        releases := [Release(nodes, release)];
        if release == Interrupted {
          result := Raised;
        }
    }
  }
}

=== FILE: selection.dfy ===
/**
 Resolution of the user's device choice against the enumerated devices:
 a device id, or `None` for the backend's default output.

 Precedence: an empty device list, then a blank choice, then a single
 in-range ASCII digit used as an index, then the first device whose
 description contains the choice case-insensitively; otherwise default.
 */
module Selection {
  import opened Wrappers
  import opened Text
  import opened Enumeration

  predicate IsAsciiDigit(c: char) {
    '0' <= c <= '9'
  }

  function DigitValue(c: char): (n: nat)
    requires IsAsciiDigit(c)
    ensures n < 10
  {
    c as int - '0' as int
  }

  /** The choice is one ASCII digit naming a listed device. */
  predicate IsIndexChoice(devices: seq<Device>, choice: string) {
    |choice| == 1 && IsAsciiDigit(choice[0]) && DigitValue(choice[0]) < |devices|
  }

  /** `choice.lower() in description.lower()`. */
  predicate Matches(d: Device, choice: string) {
    Contains(Lower(choice), Lower(d.description))
  }

  /** Device `k` is the first one in list order whose description matches. */
  predicate IsFirstMatch(devices: seq<Device>, choice: string, k: nat) {
    && k < |devices|
    && Matches(devices[k], choice)
    && forall j :: 0 <= j < k ==> !Matches(devices[j], choice)
  }

  /** Index of the first device whose description matches, if any. */
  function FirstMatch(devices: seq<Device>, choice: string): (r: Option<nat>)
    ensures r.Some? ==> IsFirstMatch(devices, choice, r.value)
    ensures r.None? <==> forall j :: 0 <= j < |devices| ==> !Matches(devices[j], choice)
  {
    if devices == [] then None
    else if Matches(devices[0], choice) then Some(0)
    else match FirstMatch(devices[1..], choice)
      case Some(k) =>
        assert devices[1..][k] == devices[k + 1];
        Some(k + 1)
      case None =>
        assert forall j :: 1 <= j < |devices| ==> devices[j] == devices[1..][j - 1];
        None
  }

  /** The choice string: `argv[1]` when given, else the interactive answer; end of input reads as "". */
  function ChoiceFrom(argv: seq<string>, input: Option<string>): (r: string)
    ensures r == [] || (!IsSpace(r[0]) && !IsSpace(r[|r| - 1]))
    ensures |argv| >= 2 ==> (r == [] <==> AllSpace(argv[1]))
    ensures |argv| < 2 && input.Some? ==> (r == [] <==> AllSpace(input.value))
    ensures |argv| < 2 && input.None? ==> r == []
  {
    if |argv| >= 2 then Strip(argv[1]) else Strip(input.GetOr(""))
  }

  /** Python `select_device` once the devices are known and the choice has been read. */
  function Select(devices: seq<Device>, choice: string): (r: Option<string>)
    ensures devices == [] || choice == "" ==> r == None
    ensures IsIndexChoice(devices, choice) ==> r == Some(devices[DigitValue(choice[0])].id)
    ensures devices != [] && choice != "" && !IsIndexChoice(devices, choice) ==>
              (r.None? <==> forall k :: 0 <= k < |devices| ==> !Matches(devices[k], choice))
    ensures devices != [] && choice != "" && !IsIndexChoice(devices, choice) && r.Some? ==>
              exists k: nat :: IsFirstMatch(devices, choice, k) && r.value == devices[k].id
  {
    if devices == [] then None
    else if choice == "" then None
    else if IsIndexChoice(devices, choice) then Some(devices[DigitValue(choice[0])].id)
    else match FirstMatch(devices, choice)
      case Some(k) => Some(devices[k].id)
      case None => None
  }

  /** Whatever is selected is the id of a listed device. */
  lemma SelectedIsListed(devices: seq<Device>, choice: string)
    requires Select(devices, choice).Some?
    ensures exists k :: 0 <= k < |devices| && devices[k].id == Select(devices, choice).value
  {
    if !IsIndexChoice(devices, choice) {
      var k: nat :| IsFirstMatch(devices, choice, k) && Select(devices, choice).value == devices[k].id;
    }
  }

  /** When the choice is not an index, the first matching description wins. */
  lemma FirstMatchWins(devices: seq<Device>, choice: string, k: nat)
    requires choice != "" && !IsIndexChoice(devices, choice)
    requires IsFirstMatch(devices, choice, k)
    ensures Select(devices, choice) == Some(devices[k].id)
  {
    var j: nat :| IsFirstMatch(devices, choice, j) && Select(devices, choice).value == devices[j].id;
    FirstMatchUnique(devices, choice, j, k);
  }

  /** At most one device is the first match. */
  lemma FirstMatchUnique(devices: seq<Device>, choice: string, j: nat, k: nat)
    requires IsFirstMatch(devices, choice, j) && IsFirstMatch(devices, choice, k)
    ensures j == k
  {
    assert forall i :: 0 <= i < j ==> !Matches(devices[i], choice);
    assert forall i :: 0 <= i < k ==> !Matches(devices[i], choice);
  }

  /** Selection does not depend on the case of the choice. */
  lemma SelectIgnoresCase(devices: seq<Device>, choice: string)
    ensures Select(devices, Lower(choice)) == Select(devices, choice)
  {
    LowerIdempotent(choice);
    assert IsIndexChoice(devices, Lower(choice)) <==> IsIndexChoice(devices, choice);
    assert forall d :: Matches(d, Lower(choice)) == Matches(d, choice);
    assert Lower(choice) == [] <==> choice == [];
    if devices != [] && choice != "" && !IsIndexChoice(devices, choice) {
      assert forall k :: IsFirstMatch(devices, Lower(choice), k) == IsFirstMatch(devices, choice, k);
    }
  }

  /** Without a command-line argument, end of input selects the default output. */
  lemma EndOfInputSelectsDefault(devices: seq<Device>, argv: seq<string>)
    requires |argv| < 2
    ensures Select(devices, ChoiceFrom(argv, None)) == None
  {
  }

  /** A command-line argument takes precedence over whatever interactive input there is. */
  lemma ArgumentOverridesInput(argv: seq<string>, a: Option<string>, b: Option<string>)
    requires |argv| >= 2
    ensures ChoiceFrom(argv, a) == ChoiceFrom(argv, b) == Strip(argv[1])
  {
  }

  /** An in-range digit is an index even when another description contains that digit. */
  lemma DigitWinsOverText()
    ensures Select([Device("hw:0", "USB Audio 1"), Device("hw:1", "HDMI")], "1") == Some("hw:1")
  {
  }

  /** A keyword picks the first description containing it, ignoring case. */
  lemma KeywordMatches()
    ensures Select([Device("hw:0", "Built-in"), Device("hw:1", "USB Box Audio")], "box") == Some("hw:1")
  {
    BoxNotInBuiltIn();
    BoxInUsbBoxAudio();
    FirstMatchWins([Device("hw:0", "Built-in"), Device("hw:1", "USB Box Audio")], "box", 1);
  }

  lemma BoxNotInBuiltIn()
    ensures !Matches(Device("hw:0", "Built-in"), "box")
  {
    assert Lower("box") == "box";
    assert Lower("Built-in") == "built-in";
    AbsentCharBlocks("box", "built-in", 2);
  }

  lemma BoxInUsbBoxAudio()
    ensures Matches(Device("hw:1", "USB Box Audio"), "box")
  {
    assert Lower("box") == "box";
    assert Lower("USB Box Audio") == "usb box audio";
    assert OccursAt("box", "usb box audio", 4);
  }

  /** A digit with no device at that index is not rejected: it is searched for as text. */
  lemma OutOfRangeDigitIsSearched()
    ensures Select([Device("hw:0", "Speaker"), Device("hw:1", "Channel 7")], "7") == Some("hw:1")
  {
    SevenNotInSpeaker();
    SevenInChannel7();
    FirstMatchWins([Device("hw:0", "Speaker"), Device("hw:1", "Channel 7")], "7", 1);
  }

  lemma SevenNotInSpeaker()
    ensures !Matches(Device("hw:0", "Speaker"), "7")
  {
    assert Lower("7") == "7";
    assert Lower("Speaker") == "speaker";
    AbsentCharBlocks("7", "speaker", 0);
  }

  lemma SevenInChannel7()
    ensures Matches(Device("hw:1", "Channel 7"), "7")
  {
    assert Lower("7") == "7";
    assert Lower("Channel 7") == "channel 7";
    assert OccursAt("7", "channel 7", 8);
  }

  /** The substring search of `select_device`: the id of the first matching device, in list order. */
  method SearchDescriptions(devices: seq<Device>, choice: string) returns (id: Option<string>)
    ensures id.None? <==> forall j :: 0 <= j < |devices| ==> !Matches(devices[j], choice)
    ensures id.Some? ==> exists k: nat :: IsFirstMatch(devices, choice, k) && id.value == devices[k].id
    ensures FirstMatch(devices, choice).Some? ==> id == Some(devices[FirstMatch(devices, choice).value].id)
  {
    var lowered := Lower(choice);
    var k := 0;
    while k < |devices|
      invariant 0 <= k <= |devices|
      invariant forall j :: 0 <= j < k ==> !Matches(devices[j], choice)
    {
      if Contains(lowered, Lower(devices[k].description)) {
        assert IsFirstMatch(devices, choice, k);
        FirstMatchUnique(devices, choice, k, FirstMatch(devices, choice).value);
        return Some(devices[k].id);
      }
      k := k + 1;
    }
    return None;
  }

  /**
   The part of Python `select_device` after enumeration, branch for branch:
   prompt only when devices exist and no argument was given, resolve, and
   warn when a non-blank choice matched nothing.
   */
  method ResolveChoice(devices: seq<Device>, argv: seq<string>, input: Option<string>)
    returns (id: Option<string>, prompted: bool, warned: bool)
    ensures id == Select(devices, ChoiceFrom(argv, input))
    ensures prompted <==> devices != [] && |argv| < 2
    ensures warned <==> devices != [] && ChoiceFrom(argv, input) != "" && id.None?
  {
    prompted, warned := false, false;
    if devices == [] {
      return None, prompted, warned;
    }
    var choice;
    if |argv| >= 2 {
      choice := Strip(argv[1]);
    } else {
      prompted := true;
      choice := Strip(input.GetOr(""));
    }
    assert choice == ChoiceFrom(argv, input);
    if choice == "" {
      return None, prompted, warned;
    }
    if |choice| == 1 && IsAsciiDigit(choice[0]) {
      var idx := DigitValue(choice[0]);
      if idx < |devices| {
        assert IsIndexChoice(devices, choice);
        return Some(devices[idx].id), prompted, warned;
      }
    }
    assert !IsIndexChoice(devices, choice);
    id := SearchDescriptions(devices, choice);
    if id.None? {
      warned := true;
    }
  }

  /** How `select_device` ends: an exception left it, or it resolved the choice. */
  datatype Outcome =
    | Escaped
    | Resolved(device: Option<string>, prompted: bool, warned: bool)

  /**
   Python `select_device`: enumerate (releasing a linked list), then resolve
   the choice. When an exception leaves the enumeration, nothing is
   prompted, resolved or warned about.
   */
  method SelectDevice(e: Enum, raisesAt: Option<nat>, release: ReleaseOutcome, argv: seq<string>, input: Option<string>)
    returns (outcome: Outcome, releases: seq<Release>)
    ensures outcome.Escaped? <==> Escapes(e, raisesAt, release)
    ensures outcome.Resolved? ==> outcome.device == Select(Enumerate(e), ChoiceFrom(argv, input))
    ensures outcome.Resolved? ==> (outcome.prompted <==> Enumerate(e) != [] && |argv| < 2)
    ensures outcome.Resolved? ==>
              (outcome.warned <==> Enumerate(e) != [] && ChoiceFrom(argv, input) != "" && outcome.device.None?)
    ensures e.Linked? ==> releases == [Release(e.nodes, release)]
    ensures !e.Linked? ==> releases == []
  {
    var walk;
    walk, releases := DevicesFromEnum(e, raisesAt, release);
    if walk.Raised? {
      return Escaped, releases;
    }
    var id, prompted, warned := ResolveChoice(walk.devices, argv, input);
    outcome := Resolved(id, prompted, warned);
  }
}

=== FILE: text.dfy ===
/**
 The small part of Python's `str` that device selection relies on:
 `strip()`, `lower()` and the substring test `needle in hay`.
 */
module Text {

  /** Python's `str.isspace()` for one character: the characters `str.strip()` removes. */
  predicate IsSpace(c: char) {
    var n := c as int;
    || (0x09 <= n <= 0x0D) || (0x1C <= n <= 0x20) || n == 0x85 || n == 0xA0
    || n == 0x1680 || (0x2000 <= n <= 0x200A) || n == 0x2028 || n == 0x2029
    || n == 0x202F || n == 0x205F || n == 0x3000
  }

  predicate AllSpace(s: string) {
    forall k :: 0 <= k < |s| ==> IsSpace(s[k])
  }

  /** `s.lstrip()`: the suffix of `s` left after dropping leading whitespace. */
  function StripLeft(s: string): (r: string)
    ensures |r| <= |s| && r == s[|s| - |r|..]
    ensures AllSpace(s[..|s| - |r|])
    ensures r == [] || !IsSpace(r[0])
  {
    if s != [] && IsSpace(s[0]) then
      var r := StripLeft(s[1..]);
      assert s[..|s| - |r|] == [s[0]] + s[1..][..|s| - 1 - |r|];
      r
    else
      assert s[..0] == [];
      s
  }

  /** `s.rstrip()`: the prefix of `s` left after dropping trailing whitespace. */
  function StripRight(s: string): (r: string)
    ensures |r| <= |s| && r == s[..|r|]
    ensures AllSpace(s[|r|..])
    ensures r == [] || !IsSpace(r[|r| - 1])
  {
    if s != [] && IsSpace(s[|s| - 1]) then
      var r := StripRight(s[..|s| - 1]);
      assert s[|r|..] == s[..|s| - 1][|r|..] + [s[|s| - 1]];
      r
    else
      assert s[|s|..] == [];
      s
  }

  /** `s.strip()`: `s` without its leading and trailing whitespace. */
  function Strip(s: string): (r: string)
    ensures r == [] <==> AllSpace(s)
    ensures r == [] || (!IsSpace(r[0]) && !IsSpace(r[|r| - 1]))
  {
    var l := StripLeft(s);
    assert StripRight(l) == [] ==> AllSpace(s) by {
      if StripRight(l) == [] {
        assert s == s[..|s| - |l|] + l;
      }
    }
    StripRight(l)
  }

  /** Stripping removes whitespace from the two ends and nothing else. */
  lemma StripKeepsMiddle(s: string)
    ensures exists i :: 0 <= i <= |s| - |Strip(s)| && Strip(s) == s[i..i + |Strip(s)|]
                        && AllSpace(s[..i]) && AllSpace(s[i + |Strip(s)|..])
  {
    var l := StripLeft(s);
    var r := Strip(s);
    var i := |s| - |l|;
    assert r == s[i..i + |r|];
    assert s[i + |r|..] == l[|r|..];
  }

  /** Stripping a stripped string changes nothing. */
  lemma StripIdempotent(s: string)
    ensures Strip(Strip(s)) == Strip(s)
  {
    var t := Strip(s);
    assert StripLeft(t) == t;
    assert StripRight(t) == t;
  }

  /** ASCII case folding of one character. */
  function LowerChar(c: char): (l: char)
    ensures !('A' <= l <= 'Z')
    ensures 'A' <= c <= 'Z' ==> l as int - c as int == 32
    ensures !('A' <= c <= 'Z') ==> l == c
  {
    if 'A' <= c <= 'Z' then (c as int + 32) as char else c
  }

  /** `s.lower()`, restricted to ASCII letters. */
  function Lower(s: string): (r: string)
    ensures |r| == |s|
    ensures forall k :: 0 <= k < |s| ==> r[k] == LowerChar(s[k])
    ensures forall k :: 0 <= k < |r| ==> !('A' <= r[k] <= 'Z')
  {
    seq(|s|, k requires 0 <= k < |s| => LowerChar(s[k]))
  }

  /** Lowering a lowered string changes nothing. */
  lemma LowerIdempotent(s: string)
    ensures Lower(Lower(s)) == Lower(s)
  {
  }

  /** `needle` occurs in `hay` starting at offset `i`. */
  predicate OccursAt(needle: string, hay: string, i: int) {
    0 <= i <= |hay| - |needle| && hay[i..i + |needle|] == needle
  }

  /** Declarative substring relation: `needle` occurs in `hay` at some offset. */
  ghost predicate OccursIn(needle: string, hay: string) {
    exists i :: OccursAt(needle, hay, i)
  }

  /** A needle with a character that `hay` lacks does not occur in `hay`. */
  lemma AbsentCharBlocks(needle: string, hay: string, j: nat)
    requires j < |needle| && forall k :: 0 <= k < |hay| ==> hay[k] != needle[j]
    ensures !OccursIn(needle, hay)
  {
    forall i ensures !OccursAt(needle, hay, i) {
      if 0 <= i <= |hay| - |needle| {
        assert hay[i..i + |needle|][j] == hay[i + j];
      }
    }
  }

  /** Python's `needle in hay`, by scanning `hay` from the left. */
  function Contains(needle: string, hay: string): (r: bool)
    ensures r <==> OccursIn(needle, hay)
    decreases |hay|
  {
    if |needle| <= |hay| && hay[..|needle|] == needle then
      assert OccursAt(needle, hay, 0);
      true
    else if |hay| <= |needle| then
      assert forall i :: !OccursAt(needle, hay, i);
      false
    else
      var found := Contains(needle, hay[1..]);
      assert found ==> OccursIn(needle, hay) by {
        if found {
          var i :| OccursAt(needle, hay[1..], i);
          assert hay[1..][i..i + |needle|] == hay[i + 1..i + 1 + |needle|];
          assert OccursAt(needle, hay, i + 1);
        }
      }
      assert OccursIn(needle, hay) ==> found by {
        if OccursIn(needle, hay) {
          var i :| OccursAt(needle, hay, i);
          assert i != 0;
          assert hay[1..][i - 1..i - 1 + |needle|] == hay[i..i + |needle|];
          assert OccursAt(needle, hay[1..], i - 1);
        }
      }
      found
  }
}

=== FILE: wrappers.dfy ===
/** The model's stand-in for a Python attribute or return value that may be `None`. */
module Wrappers {

  /** Either nothing (`None`) or one value. */
  datatype Option<T> = None | Some(value: T) {

    /** The carried value, with `fallback` standing in for `None`. */
    function GetOr(fallback: T): (v: T)
      ensures Some? ==> v == value
      ensures None? ==> v == fallback
    {
      if Some? then value else fallback
    }
  }
}
